=== FILE: README.md ===
# Pricing environments for multi-agent reinforcement learning, in Dafny

This project models the three market environments of a small research
package on algorithmic pricing. In each one, firms repeatedly pick an index
into a discrete price grid. The environment turns the joint choice into
demands and profits.

- `SequentialPricingEnv` (module `SequentialPricing`, `sequential.dfy`) is
  the Klein (2021) homogeneous-goods market for n firms.
  - Prices come from `np.linspace(0, 1, n_prices)`.
  - The firm or firms at the lowest price split the market `1 - p`; every
    other firm sells nothing.
  - Profit is price times demand, with numpy broadcasting.
- `BertrandPricingEnv` (module `BertrandPricing`, `bertrand.dfy`) is a
  two-firm discrete Bertrand game.
  - The cheaper firm gets demand 1 and a tie gives 0.5 each.
  - Profit is `(p - cost) * d`.
- `LogitDemandPricingEnv` (module `LogitPricing`, `logit.dfy`) is a
  two-firm game with Logit demand and an outside option.
  - The state is the index pair played last.

Shared pieces:
- `Common` (`common.dfy`) holds the failures the Python code can raise
  (`IndexError`, numpy's `ValueError`s, `ZeroDivisionError`) as a `Result`
  type. It also holds Python's indexing, where negative indices count from
  the end, and the list comprehension `[s[i] for i in idx]`.
- `PriceGrid` (`grid.dfy`) models `np.linspace`. With one point, numpy
  gives `[lo]`.

Modelling choices:
- Prices are `real`.
- Every operation except the Logit `reset` is a pure function of the
  environment's fields. An operation that writes attributes returns the
  updated environment. The Logit `reset` is a method, because its draws
  are random.
- The exponential in the Logit environment is a function parameter `exp`.
  Each property requires only what it needs of `exp`: positive everywhere,
  or also strictly increasing.
- The random draws of the Logit `reset` are a nondeterministic choice.

## Model

| member | source | states |
|---|---|---|
| `Common.At` | env/bertrand_env.py:54-55 | A price look-up `prices[a]` succeeds exactly for Python-valid indices (negative ones count from the end) and otherwise raises an index error naming the index. |
| `Common.Gather` | sequential_pricing_env/envs/sequential_pricing_env.py:78 | `[prices[i] for i in idx]` succeeds exactly when every index is valid; the result has one price per index, each the wrapped look-up. |
| `Common.GatherReportsFirstBadIndex` | sequential_pricing_env/envs/sequential_pricing_env.py:78 | A failed look-up reports an invalid index, and every index before it was valid, as the left-to-right comprehension does. |
| `Common.Remove` | sequential_pricing_env/envs/sequential_pricing_env.py:82 | `np.delete(prices, i)`: one entry fewer. `Common.MultisetRemove` shows it drops exactly the i-th entry from the multiset of prices. |
| `Common.GatherRearranged` | sequential_pricing_env/envs/sequential_pricing_env.py:78 | Rearranging the action's indices rearranges the looked-up prices the same way (equal multisets), and keeps the look-up successful. |
| `PriceGrid.Linspace` | sequential_pricing_env/envs/sequential_pricing_env.py:30 | The grid has n points, starting at lo and ending at hi, evenly spaced one step (hi - lo)/(n - 1) apart. With lo <= hi every point lies in [lo, hi] in non-decreasing order, and with lo < hi the points strictly increase. |
| `PriceGrid.EvenSteps` | sequential_pricing_env/envs/sequential_pricing_env.py:30 | Neighbouring grid points differ by exactly (hi - lo)/(n - 1). |
| `PriceGrid.UnitGrid` | sequential_pricing_env/envs/sequential_pricing_env.py:30 | The sequential grid's k-th point is k/(n-1); all points lie in [0, 1] and strictly increase. |
| `SequentialPricing.New` | sequential_pricing_env/envs/sequential_pricing_env.py:24-49 | Construction keeps the firm count and builds the grid `np.linspace(0, 1, n_prices)`, which lies inside [0, 1] and strictly increases. It leaves zero previous prices, zero previous profits and no previous index vector. |
| `SequentialPricing.NewPrices` | sequential_pricing_env/envs/sequential_pricing_env.py:30 | A new environment's k-th price is k/(n_prices - 1). |
| `SequentialPricing.Reset` | sequential_pricing_env/envs/sequential_pricing_env.py:51-64 | Reset zeroes one previous price and one previous profit per firm, returns the previous prices as the observation, and leaves grid, firm count and previous index vector alone. |
| `SequentialPricing.MinOf` | sequential_pricing_env/envs/sequential_pricing_env.py:85 | `np.min` returns an entry of the array that no entry is below. |
| `SequentialPricing.LowestCompetitor` | sequential_pricing_env/envs/sequential_pricing_env.py:83-85 | The minimum of `np.delete(prices, i)` is some other firm's price, and no other firm charges less. |
| `SequentialPricing.Count` | sequential_pricing_env/envs/sequential_pricing_env.py:89 | `np.sum(prices == own_price)` is at most the number of prices, and at least 1 for a price that is charged. `SequentialPricing.CountIsMultiplicity` gives the exact value. |
| `SequentialPricing.CountIsMultiplicity` | sequential_pricing_env/envs/sequential_pricing_env.py:90 | The number of firms counted at a price is that price's multiplicity among all prices charged. |
| `SequentialPricing.CompareWithCompetitors` | sequential_pricing_env/envs/sequential_pricing_env.py:85-92 | Being at or below the lowest competitor means charging the overall lowest price, and being strictly below means being alone there; being above means someone charges less. |
| `SequentialPricing.FirmDemand` | sequential_pricing_env/envs/sequential_pricing_env.py:80-94 | The loop body as written: the firm's price against its lowest competitor's, with three branches. Its reference property is `SequentialPricing.DemandClosedForm`; the branch lemmas below each state one branch. |
| `SequentialPricing.DemandClosedForm` | sequential_pricing_env/envs/sequential_pricing_env.py:81-94 | A firm's demand is (1 - m) divided by the number of firms charging m when it charges the overall lowest price m, and 0 otherwise. |
| `SequentialPricing.SoleLowestTakesMarket` | sequential_pricing_env/envs/sequential_pricing_env.py:85-87 | A firm strictly below every competitor gets 1 minus its price. |
| `SequentialPricing.TiedFirmsSplit` | sequential_pricing_env/envs/sequential_pricing_env.py:88-91 | A firm tied with another at the lowest price gets (1 - p)/k, where k >= 2 firms charge exactly p. |
| `SequentialPricing.UndercutGetsNothing` | sequential_pricing_env/envs/sequential_pricing_env.py:92-94 | A firm that some competitor undercuts sells nothing. |
| `SequentialPricing.CalculateDemand` | sequential_pricing_env/envs/sequential_pricing_env.py:66-96 | Demand is computed exactly when the look-up succeeds and there are no firms or at least two prices covering every firm. It has one entry per firm. Each failure is the one Python raises first: a bad index, `prices[0]` on an empty list, `np.min` of no competitors, or `prices[i]` past the end. |
| `SequentialPricing.DemandAt` | sequential_pricing_env/envs/sequential_pricing_env.py:81-94 | Firm i's entry of the demand vector is the per-firm rule applied to the looked-up prices. |
| `SequentialPricing.Broadcast` | sequential_pricing_env/envs/sequential_pricing_env.py:111 | numpy's `a * b` succeeds exactly for equal lengths or a length-1 side. The result has the common length, or the other side's length when one side has length 1. |
| `SequentialPricing.BroadcastAt` | sequential_pricing_env/envs/sequential_pricing_env.py:111 | Each entry of the broadcast product multiplies matching entries, with a length-1 side supplying its only entry. |
| `SequentialPricing.CalculateProfit` | sequential_pricing_env/envs/sequential_pricing_env.py:98-111 | Profit is computed exactly when demand is and the price vector broadcasts against the n-firm demand vector; its length follows the broadcasting rule. |
| `SequentialPricing.ProfitIsPriceTimesDemand` | sequential_pricing_env/envs/sequential_pricing_env.py:108-111 | For one valid index per firm, each firm's profit is its price times its demand. |
| `SequentialPricing.Step` | sequential_pricing_env/envs/sequential_pricing_env.py:113-148 | Step succeeds exactly when the profit computation does. It returns the action as the observation, with terminated and truncated false, and the profit in both the reward and the info. The info's prices are the looked-up prices. It writes only `previous_prices_idx` and `previous_profit`. |
| `SequentialPricing.DemandBounds` | sequential_pricing_env/envs/sequential_pricing_env.py:81-94 | On a grid inside [0, 1], every demand lies in [0, 1]. |
| `SequentialPricing.DemandWithinMarket` | sequential_pricing_env/envs/sequential_pricing_env.py:85-94 | No firm sells more than 1 minus its own price. |
| `SequentialPricing.MarketServed` | sequential_pricing_env/envs/sequential_pricing_env.py:81-94 | The per-firm demands at any prices add up to 1 minus the lowest price. |
| `SequentialPricing.DemandsSumToMarket` | sequential_pricing_env/envs/sequential_pricing_env.py:66-96 | For one valid index per firm, the demand vector sums to 1 minus the lowest price charged. |
| `SequentialPricing.DemandIgnoresOrder` | sequential_pricing_env/envs/sequential_pricing_env.py:81-94 | A firm's demand depends only on its own price and the multiset of prices charged. |
| `SequentialPricing.RelabelDemand` | sequential_pricing_env/envs/sequential_pricing_env.py:66-96 | If one action rearranges another, a firm at the same price index gets the same price and the same demand in both. |
| `SequentialPricing.RelabelFirms` | sequential_pricing_env/envs/sequential_pricing_env.py:98-111 | ... and the same profit. |
| `SequentialPricing.SwapFirms` | sequential_pricing_env/envs/sequential_pricing_env.py:98-111 | Swapping two firms' indices swaps their demands and profits and leaves every other firm's unchanged. |
| `SequentialPricing.ProfitNonNegative` | sequential_pricing_env/envs/sequential_pricing_env.py:108-111 | On a grid inside [0, 1], no firm's profit is negative. |
| `SequentialPricing.RunKeepsResetPrices` | sequential_pricing_env/envs/sequential_pricing_env.py:131-133 | Any run of steps keeps `previous_prices`, the firm count and the grid as they were. |
| `SequentialPricing.PreviousPricesStayZero` | sequential_pricing_env/envs/sequential_pricing_env.py:131-133 | After construction and any run of steps, `previous_prices` is still all zeros. |
| `BertrandPricing.New` | env/bertrand_env.py:35-42 | The grid is `np.linspace(price_min, price_max, grid_size)`: grid_size points from price_min to price_max inclusive, inside [price_min, price_max] and non-decreasing when price_min <= price_max, and strictly increasing when price_min < price_max. The cost is stored. |
| `BertrandPricing.Demand` | env/bertrand_env.py:57-65 | The demands add up to 1 when either price is at most the grid's last point and to 0 otherwise. The dearer firm gets 0, a tie gives equal demands, and each demand lies in [0, 1]. |
| `BertrandPricing.DemandAsDocumented` | env/bertrand_env.py:57-65 | The rule equals the documented one (cheaper gets 1, tie 0.5 each) exactly when some price passes the `p <= prices[-1]` guard. |
| `BertrandPricing.DemandSymmetric` | env/bertrand_env.py:57-65 | Swapping the prices swaps the demands. |
| `BertrandPricing.Step` | env/bertrand_env.py:52-71 | Step succeeds exactly for two valid indices, and otherwise reports firm i's bad index first. It returns observation 0 and terminated false. |
| `BertrandPricing.Reset` | env/bertrand_env.py:73-75 | Reset returns the same observation that every successful step returns. |
| `BertrandPricing.StepProfits` | env/bertrand_env.py:67-69 | Each reward is the firm's price minus the cost, times its demand. |
| `BertrandPricing.DearerFirmEarnsNothing` | env/bertrand_env.py:58-69 | A firm with a strictly higher price earns exactly 0. |
| `BertrandPricing.SwapFirms` | env/bertrand_env.py:52-69 | Swapping the two actions swaps the two rewards. |
| `BertrandPricing.SameActionSameProfit` | env/bertrand_env.py:52-69 | Equal indices give equal rewards. |
| `BertrandPricing.LastPointIsHighest` | env/bertrand_env.py:41 | With price_min <= price_max, no grid price exceeds the last one, so the guard always holds. |
| `BertrandPricing.AscendingGridFollowsDocumentedRule` | env/bertrand_env.py:52-69 | With price_min <= price_max and valid indices, the documented rule holds and the demands add up to 1. The cheaper firm earns its margin and the other 0; a tie earns each half its margin. |
| `BertrandPricing.IndustryProfit` | env/bertrand_env.py:67-69 | With price_min <= price_max, the two rewards add up to the lower price minus the cost. |
| `BertrandPricing.DescendingGridLosesMarket` | env/bertrand_env.py:58-65 | With price_min > price_max, two firms tied at the top price sell nothing, where the documented rule splits the market. |
| `LogitPricing.New` | env/LogitDemandPricingEnv.py:32-48 | The grid is `np.linspace(price_min, price_max, grid_size)` from price_min to price_max inclusive, ordered and within bounds. cost, beta, a_0, a_12 and mu are stored as given, and no state exists yet. |
| `LogitPricing.Weight` | env/LogitDemandPricingEnv.py:70 | The weight `np.exp((a_12 - p) / mu)` of a good is positive whenever exp is. `LogitPricing.WeightFalls` shows it falls as the price rises. |
| `LogitPricing.OutsideWeight` | env/LogitDemandPricingEnv.py:70 | The outside option's weight `np.exp(a_0 / mu)` is positive whenever exp is. |
| `LogitPricing.Shares` | env/LogitDemandPricingEnv.py:70-73 | For any positive exp, both Logit shares are strictly positive and add up to less than 1. |
| `LogitPricing.OutsideShare` | env/LogitDemandPricingEnv.py:70-73 | What the two goods leave is the outside option's weight over the same denominator. |
| `LogitPricing.SharesSymmetric` | env/LogitDemandPricingEnv.py:70-73 | Swapping the prices swaps the shares. |
| `LogitPricing.WeightFalls` | env/LogitDemandPricingEnv.py:70 | With mu > 0 and exp increasing, a higher price gets a strictly lower weight. |
| `LogitPricing.OwnPriceLowersShare` | env/LogitDemandPricingEnv.py:70-73 | With mu > 0, exp increasing and the rival's price fixed, a higher own price strictly lowers the own share and strictly raises the rival's. |
| `LogitPricing.CheaperGoodSellsMore` | env/LogitDemandPricingEnv.py:70-73 | With mu > 0 and exp increasing, the cheaper good has the strictly larger share. |
| `LogitPricing.Step` | env/LogitDemandPricingEnv.py:61-84 | Step succeeds exactly for two valid indices and mu != 0. Its errors come in Python's order: firm i's index, firm j's index, then the division by zero. It stores the action pair as the state, returns it as the observation with terminated and truncated false, and changes nothing else. |
| `LogitPricing.StepProfits` | env/LogitDemandPricingEnv.py:77-79 | Each reward is the firm's price minus the cost, times its Logit share. |
| `LogitPricing.SameActionSameOutcome` | env/LogitDemandPricingEnv.py:64-79 | Equal indices give equal shares, each below one half, and equal rewards. |
| `LogitPricing.SwapFirms` | env/LogitDemandPricingEnv.py:64-79 | Swapping the two actions swaps the two shares and the two rewards. |
| `LogitPricing.ProfitSign` | env/LogitDemandPricingEnv.py:77-79 | Each reward has the sign of the firm's margin p - cost: positive above cost, zero at cost, negative below. |
| `LogitPricing.Reset` | env/LogitDemandPricingEnv.py:87-93 | Reset draws two indices in [0, grid_size), stores them as the state and returns them, changing nothing else. It fails with numpy's empty-range error when grid_size is 0. |
| `LogitPricing.StateIsPlayable` | env/LogitDemandPricingEnv.py:87-93 | Any index pair reset can draw is an action step accepts when mu != 0, and stepping on it makes it the state. |

## Where the code and its docstrings differ

The model follows the code wherever the two disagree.
- Action indices: the module docstrings of env/bertrand_env.py (line 12) and
  env/LogitDemandPricingEnv.py (line 10) put each action in `{0, ..., M-1}`.
  The code indexes a Python list or numpy array, so `-M <= a < 0` counts from
  the end and is accepted. The model accepts those indices too.
- Demand in the Bertrand class docstring (env/bertrand_env.py:28-29): the
  cheaper firm gets demand 1 and a tie splits it. The code also asks the
  winning price to be at most `prices[-1]`. On a grid built with
  `price_min <= price_max` this changes nothing
  (`BertrandPricing.AscendingGridFollowsDocumentedRule`). With
  `price_min > price_max` two firms can both sell nothing
  (`BertrandPricing.DescendingGridLosesMarket`).
- Parameters: no constructor validates `price_min`, `price_max`, `grid_size`,
  `n_prices`, `n_firms` or `mu` itself. Invalid sizes are caught only by the
  libraries.
  - numpy rejects negative sizes: `np.linspace` raises `ValueError` for a
    negative `n_prices` or `grid_size`, and `np.zeros` for a negative
    `n_firms`.
  - gymnasium rejects a zero `grid_size` in `Discrete`, and a zero `n_prices`
    in `MultiDiscrete` when `n_firms >= 1`.
  - `n_firms == 0` is accepted everywhere.
  - The model takes any parameters.
  - With `mu == 0`, the Logit step fails at the Python division `a_0 / mu`.

## Left out

- Default arguments: each `New` takes every constructor parameter
  explicitly. The Python defaults are not modelled:
  - `n_firms=2, n_prices=6` (sequential_pricing_env.py:14);
  - `price_min=0.01, price_max=10.0, grid_size=100, marginal_cost=2.0`
    (env/bertrand_env.py:36-39);
  - `beta=0.95, a_0=0, a_12=10, mu=0.25` (env/LogitDemandPricingEnv.py:37-40).
- Gymnasium plumbing: `action_space`, `observation_space` and
  `observation_state`, `render`, `close`, `metadata` and the seeding in
  `super().reset(seed=...)`. These are spaces and framework calls with no
  effect on prices, demands or profits.
- `gymnasium.spaces.Discrete` and `MultiDiscrete` checks on their sizes
  (for example `grid_size > 0`). These run inside gymnasium, whose source is
  not part of this model. `LogitPricing.Reset` therefore fails with numpy's
  empty-range error when `grid_size == 0`, instead of construction failing.
- Unused fields:
  - the sequential environment's `discount_factor`, `render_mode`, `p_nash`
    and `p_monopoly`;
  - the Logit environment's `beta`, which is stored and never read.
- `LogitDemandPricingAmazonEnv` (env/LogitDemandPricingEnv.py:95-103) and
  env/AmazonLogitDemandPricing_env.py: the Buy Box variant is a class with no
  methods and a file holding only a docstring. There is no Buy Box or
  equilibrium-solver code to model.
- rf_interface.py and run_rf_prediction.py (loading a serialized classifier),
  setup.py and the package `__init__.py` (registration). These are external
  collaborators and packaging.
- Floating point: prices, demands and profits are exact reals. Rounding in
  `np.linspace`, infinities and NaNs are not modelled, and neither is the
  overflow of `np.exp` for large utilities.
- Division by zero: `mu == 0` is modelled as Python's `ZeroDivisionError` from
  `a_0 / mu`. This assumes the default plain-Python `a_0` and `mu`. numpy
  scalars would give infinities instead of raising.
- Negative sizes: a negative `n_firms`, `n_prices` or `grid_size` makes
  `np.zeros` or `np.linspace` raise `ValueError`. The model's sizes are
  `nat`, so that error path is not modelled.
- Aliasing: the Python environments keep references, not copies.
  `previous_prices_idx` is the caller's action array itself
  (sequential_pricing_env.py:132), and `reset` returns the `previous_prices`
  array itself (line 64). The model has value semantics, so later mutation
  of a shared array is not modelled.
- dtype: `previous_profit` starts as an integer zero array and becomes a
  float array after a step. The model keeps it as reals throughout.
- The two-firm action is modelled as two integers. The Python `step`
  unpacks `a_i, a_j = actions` (env/bertrand_env.py:53,
  env/LogitDemandPricingEnv.py:64), which raises `ValueError` for an action
  that is not a pair. That error path is not modelled.
- The sequential action is modelled as a flat sequence of integers. The
  numpy fancy-indexing semantics of other index shapes (tuples, nested
  arrays, booleans) are not modelled.

=== FILE: bertrand.dfy ===
/** `BertrandPricingEnv`: two firms pick indices into one price grid; the
    cheaper firm takes the whole unit market, a tie splits it, and each firm's
    profit is its margin over the marginal cost times its demand. The state is
    a single dummy observation 0. */
module BertrandPricing {
  import opened Common
  import PriceGrid

  /** The environment's fields: the price grid and the marginal cost. */
  datatype Env = Env(prices: seq<real>, cost: real)

  /** What `step` returns: the dummy observation, the two profits and the
      termination flag of the four-element tuple (the info dictionary is
      always empty). */
  datatype Outcome = Outcome(observation: int, rewards: (real, real), terminated: bool)

  /** The constructor: `np.linspace(price_min, price_max, grid_size)` and the
      cost. */
  function New(lo: real, hi: real, gridSize: nat, cost: real): (env: Env)
    ensures env.prices == PriceGrid.Linspace(lo, hi, gridSize) && env.cost == cost
    ensures |env.prices| == gridSize
    ensures gridSize >= 1 ==> env.prices[0] == lo
    ensures gridSize >= 2 ==> env.prices[gridSize - 1] == hi
    ensures lo <= hi ==> PriceGrid.Within(env.prices, lo, hi) && PriceGrid.NonDecreasing(env.prices)
    ensures lo < hi ==> PriceGrid.StrictlyIncreasing(env.prices)
  {
    Env(PriceGrid.Linspace(lo, hi, gridSize), cost)
  }

  /** The demand split the class documentation describes: the cheaper firm
      gets 1, a tie gives 0.5 each. */
  function IntendedDemand(pi: real, pj: real): (real, real) {
    if pi < pj then (1.0, 0.0) else if pj < pi then (0.0, 1.0) else (0.5, 0.5)
  }

  /** The demand rule of `step` as written: each branch also asks the winning
      price to be at most `top`, the grid's last point, and when no branch
      applies nobody sells. */
  function Demand(pi: real, pj: real, top: real): (d: (real, real))
    ensures d.0 + d.1 == if pi <= top || pj <= top then 1.0 else 0.0
    ensures pj < pi ==> d.0 == 0.0
    ensures pi < pj ==> d.1 == 0.0
    ensures pi == pj ==> d.0 == d.1
    ensures 0.0 <= d.0 <= 1.0 && 0.0 <= d.1 <= 1.0
  {
    if pi < pj && pi <= top then (1.0, 0.0)
    else if pj < pi && pj <= top then (0.0, 1.0)
    else if pi == pj && pi <= top then (0.5, 0.5)
    else (0.0, 0.0)
  }

  /** The guard on `top` only matters when both prices lie above it: otherwise
      the rule is the documented one. */
  lemma DemandAsDocumented(pi: real, pj: real, top: real)
    ensures pi <= top && pj <= top ==> Demand(pi, pj, top) == IntendedDemand(pi, pj)
    ensures Demand(pi, pj, top) == IntendedDemand(pi, pj) <==> pi <= top || pj <= top
  {
  }

  /** Relabelling the two firms relabels the demands. */
  lemma DemandSymmetric(pi: real, pj: real, top: real)
    ensures Demand(pj, pi, top) == (Demand(pi, pj, top).1, Demand(pi, pj, top).0)
  {
  }

  /** `step`: look both prices up (firm i's first), split the market, and
      return the profits with observation 0 and no termination; the
      environment itself never changes. */
  function Step(env: Env, ai: int, aj: int): (r: Result<Outcome>)
    ensures r.Ok? <==> ValidIndex(|env.prices|, ai) && ValidIndex(|env.prices|, aj)
    ensures r.Err? ==> r.error == IndexOutOfRange(if ValidIndex(|env.prices|, ai) then aj else ai)
    ensures r.Ok? ==> r.value.observation == 0 && !r.value.terminated
  {
    var pi :- At(env.prices, ai);
    var pj :- At(env.prices, aj);
    var top := env.prices[|env.prices| - 1];   // prices[-1]
    var d := Demand(pi, pj, top);
    Ok(Outcome(0, ((pi - env.cost) * d.0, (pj - env.cost) * d.1), false))
  }

  /** `reset`: the dummy observation (the info dictionary it also returns is
      always empty). */
  function Reset(env: Env): (obs: int)
    ensures forall ai, aj :: Step(env, ai, aj).Ok? ==> Step(env, ai, aj).value.observation == obs
  {
    0
  }

  /** Each profit is the firm's margin times its demand under the rule. */
  lemma StepProfits(env: Env, ai: int, aj: int)
    requires Step(env, ai, aj).Ok?
    ensures var pi, pj, top := Item(env.prices, ai), Item(env.prices, aj), env.prices[|env.prices| - 1];
            && Step(env, ai, aj).value.rewards.0 == (pi - env.cost) * Demand(pi, pj, top).0
            && Step(env, ai, aj).value.rewards.1 == (pj - env.cost) * Demand(pi, pj, top).1
  {
    assert At(env.prices, ai) == Ok(Item(env.prices, ai));
    assert At(env.prices, aj) == Ok(Item(env.prices, aj));
  }

  /** The strictly dearer firm earns exactly nothing. */
  lemma DearerFirmEarnsNothing(env: Env, ai: int, aj: int)
    requires Step(env, ai, aj).Ok?
    ensures Item(env.prices, ai) > Item(env.prices, aj) ==> Step(env, ai, aj).value.rewards.0 == 0.0
    ensures Item(env.prices, aj) > Item(env.prices, ai) ==> Step(env, ai, aj).value.rewards.1 == 0.0
  {
    StepProfits(env, ai, aj);
    var pi, pj := Item(env.prices, ai), Item(env.prices, aj);
    var d := Demand(pi, pj, env.prices[|env.prices| - 1]);
    var r := Step(env, ai, aj).value.rewards;
    assert r.0 == (pi - env.cost) * d.0 && r.1 == (pj - env.cost) * d.1;
    if pi > pj {
      NoSalesNoProfit(pi - env.cost, d.0);
      assert r.0 == 0.0;
    } else if pj > pi {
      NoSalesNoProfit(pj - env.cost, d.1);
      assert r.1 == 0.0;
    }
  }

  lemma NoSalesNoProfit(margin: real, d: real)
    requires d == 0.0
    ensures margin * d == 0.0
  {
  }

  /** Swapping the two actions swaps the two profits. */
  lemma SwapFirms(env: Env, ai: int, aj: int)
    requires Step(env, ai, aj).Ok?
    ensures Step(env, aj, ai).Ok?
    ensures Step(env, aj, ai).value.rewards.0 == Step(env, ai, aj).value.rewards.1
    ensures Step(env, aj, ai).value.rewards.1 == Step(env, ai, aj).value.rewards.0
  {
    StepProfits(env, ai, aj);
    StepProfits(env, aj, ai);
    DemandSymmetric(Item(env.prices, ai), Item(env.prices, aj), env.prices[|env.prices| - 1]);
  }

  /** Two firms choosing the same index earn the same. */
  lemma SameActionSameProfit(env: Env, a: int)
    requires Step(env, a, a).Ok?
    ensures Step(env, a, a).value.rewards.0 == Step(env, a, a).value.rewards.1
  {
    StepProfits(env, a, a);
  }

  /** On a grid built from price_min <= price_max the last point is the
      highest, so every price passes the guard. */
  lemma LastPointIsHighest(lo: real, hi: real, gridSize: nat, cost: real, a: int)
    requires lo <= hi
    requires ValidIndex(gridSize, a)
    ensures Item(New(lo, hi, gridSize, cost).prices, a) <= New(lo, hi, gridSize, cost).prices[gridSize - 1]
  {
    var env := New(lo, hi, gridSize, cost);
    var k := Wrap(gridSize, a);
    if k < gridSize - 1 {
      assert env.prices[k] <= env.prices[gridSize - 1];
    }
  }

  /** On such a grid the documented rule holds exactly: the cheaper firm earns
      its margin on the whole market, a tie earns each firm half its margin,
      and the whole unit market is always served. */
  lemma AscendingGridFollowsDocumentedRule(lo: real, hi: real, gridSize: nat, cost: real, ai: int, aj: int)
    requires lo <= hi
    requires ValidIndex(gridSize, ai) && ValidIndex(gridSize, aj)
    ensures var env := New(lo, hi, gridSize, cost);
            var pi, pj := Item(env.prices, ai), Item(env.prices, aj);
            && Step(env, ai, aj).Ok?
            && Demand(pi, pj, env.prices[gridSize - 1]) == IntendedDemand(pi, pj)
            && Demand(pi, pj, env.prices[gridSize - 1]).0 + Demand(pi, pj, env.prices[gridSize - 1]).1 == 1.0
            && Step(env, ai, aj).value.rewards.0 ==
                 (if pi < pj then pi - cost else if pj < pi then 0.0 else (pi - cost) * 0.5)
            && Step(env, ai, aj).value.rewards.1 ==
                 (if pj < pi then pj - cost else if pi < pj then 0.0 else (pj - cost) * 0.5)
  {
    var env := New(lo, hi, gridSize, cost);
    LastPointIsHighest(lo, hi, gridSize, cost, ai);
    LastPointIsHighest(lo, hi, gridSize, cost, aj);
    DemandAsDocumented(Item(env.prices, ai), Item(env.prices, aj), env.prices[gridSize - 1]);
    StepProfits(env, ai, aj);
  }

  /** Industry profit on such a grid: the lowest price's margin. */
  lemma IndustryProfit(lo: real, hi: real, gridSize: nat, cost: real, ai: int, aj: int)
    requires lo <= hi
    requires ValidIndex(gridSize, ai) && ValidIndex(gridSize, aj)
    ensures var env := New(lo, hi, gridSize, cost);
            var pi, pj := Item(env.prices, ai), Item(env.prices, aj);
            && Step(env, ai, aj).Ok?
            && Step(env, ai, aj).value.rewards.0 + Step(env, ai, aj).value.rewards.1
                 == (if pi <= pj then pi else pj) - cost
  {
    AscendingGridFollowsDocumentedRule(lo, hi, gridSize, cost, ai, aj);
  }

  /** When price_min > price_max the grid descends and its last point is the
      lowest: two firms tied at the top price then sell nothing at all, where
      the documented rule would split the market. */
  lemma DescendingGridLosesMarket()
    ensures var env := New(1.0, 0.0, 2, 0.0);
            && env.prices == [1.0, 0.0]
            && Step(env, 0, 0) == Ok(Outcome(0, (0.0, 0.0), false))
            && IntendedDemand(1.0, 1.0) == (0.5, 0.5)
  {
    var env := New(1.0, 0.0, 2, 0.0);
    assert env.prices[0] == 1.0 && env.prices[1] == 0.0;
    assert env.prices == [1.0, 0.0];
  }
}

=== FILE: common.dfy ===
/** Vocabulary shared by the three pricing environments: the exceptions the
    Python code can raise on bad input, and Python's sequence indexing, which
    every environment uses to turn a price index into a price. */
module Common {

  /** The failures an environment call can end in. */
  datatype Error =
    | IndexOutOfRange(index: int)  // IndexError: a grid or list index outside the sequence
    | EmptyCompetitors             // ValueError: np.min over an empty array of competitor prices
    | ShapeMismatch                // ValueError: numpy cannot broadcast two arrays together
    | EmptyRange                   // ValueError: np.random.randint(0) has nothing to draw
    | ZeroDivision                 // ZeroDivisionError: a Python number divided by zero

  datatype Option<+T> = None | Some(value: T)

  /** A value or the error that stopped its computation; `:-` passes the
      error on, as an uncaught Python exception propagates. */
  datatype Result<+T> = Ok(value: T) | Err(error: Error) {
    predicate IsFailure() {
      Err?
    }

    function PropagateFailure<U>(): Result<U>
      requires Err?
    {
      Err(error)
    }

    function Extract(): T
      requires Ok?
    {
      value
    }
  }

  /** An index Python accepts for a sequence of length n: negative indices count from the end. */
  predicate ValidIndex(n: nat, i: int) {
    -(n as int) <= i < n
  }

  /** The position a valid Python index denotes. */
  function Wrap(n: nat, i: int): (k: nat)
    requires ValidIndex(n, i)
    ensures k < n
    ensures k - i in {0, n}
  {
    if i < 0 then n + i else i
  }

  /** The entry a valid Python index selects. */
  function Item<T>(s: seq<T>, i: int): T
    requires ValidIndex(|s|, i)
  {
    s[Wrap(|s|, i)]
  }

  /** Python's `s[i]`. */
  function At<T>(s: seq<T>, i: int): (r: Result<T>)
    ensures r.Ok? <==> ValidIndex(|s|, i)
    ensures r.Ok? ==> r.value == s[Wrap(|s|, i)]
    ensures r.Err? ==> r.error == IndexOutOfRange(i)
  {
    if ValidIndex(|s|, i) then Ok(Item(s, i)) else Err(IndexOutOfRange(i))
  }

  /** The position of the first index Python would reject. */
  function FirstBad(n: nat, idx: seq<int>): (k: nat)
    requires exists k :: 0 <= k < |idx| && !ValidIndex(n, idx[k])
    ensures k < |idx| && !ValidIndex(n, idx[k])
    ensures forall j :: 0 <= j < k ==> ValidIndex(n, idx[j])
  {
    if !ValidIndex(n, idx[0]) then 0 else 1 + FirstBad(n, idx[1..])
  }

  /** The values a successful look-up gathers, position by position. */
  function Looked<T>(s: seq<T>, idx: seq<int>): seq<T>
    requires forall k :: 0 <= k < |idx| ==> ValidIndex(|s|, idx[k])
  {
    seq(|idx|, k requires 0 <= k < |idx| => s[Wrap(|s|, idx[k])])
  }

  /** Looks every index of `idx` up in `s`, as the list comprehension
      `[s[i] for i in idx]` and numpy's `s[idx]` do: the first invalid index
      raises. */
  function Gather<T>(s: seq<T>, idx: seq<int>): (r: Result<seq<T>>)
    ensures r.Ok? <==> forall k :: 0 <= k < |idx| ==> ValidIndex(|s|, idx[k])
    ensures r.Ok? ==> |r.value| == |idx|
    ensures r.Ok? ==> forall k :: 0 <= k < |idx| ==> r.value[k] == s[Wrap(|s|, idx[k])]
  {
    if forall k :: 0 <= k < |idx| ==> ValidIndex(|s|, idx[k])
    then Ok(Looked(s, idx))
    else Err(IndexOutOfRange(idx[FirstBad(|s|, idx)]))
  }

  /** A failed look-up reports an index Python rejects, and every index before
      it was accepted. */
  lemma GatherReportsFirstBadIndex<T>(s: seq<T>, idx: seq<int>)
    requires Gather(s, idx).Err?
    ensures exists k :: 0 <= k < |idx| && !ValidIndex(|s|, idx[k])
                        && Gather(s, idx).error == IndexOutOfRange(idx[k])
                        && forall j :: 0 <= j < k ==> ValidIndex(|s|, idx[j])
  {
    var k := FirstBad(|s|, idx);
    assert !ValidIndex(|s|, idx[k]);
  }

  /** s without its k-th entry, in order, as `np.delete(s, k)` gives it. */
  function Remove<T>(s: seq<T>, k: nat): (r: seq<T>)
    requires k < |s|
    ensures |r| == |s| - 1
  {
    seq(|s| - 1, j requires 0 <= j < |s| - 1 => if j < k then s[j] else s[j + 1])
  }

  /** Removing an entry removes one copy of it from the multiset. */
  lemma MultisetRemove<T>(s: seq<T>, k: nat)
    requires k < |s|
    ensures multiset(s) == multiset(Remove(s, k)) + multiset{s[k]}
  {
    assert s == s[..k] + [s[k]] + s[k+1..];
    assert Remove(s, k) == s[..k] + s[k+1..];
  }

  /** Looking up the indices without the k-th gives the values without the
      k-th. */
  lemma LookedRemove<T>(s: seq<T>, idx: seq<int>, k: nat)
    requires forall j :: 0 <= j < |idx| ==> ValidIndex(|s|, idx[j])
    requires k < |idx|
    ensures forall j :: 0 <= j < |Remove(idx, k)| ==> ValidIndex(|s|, Remove(idx, k)[j])
    ensures Looked(s, Remove(idx, k)) == Remove(Looked(s, idx), k)
  {
  }

  /** Rearranging the indices does not change whether the look-up succeeds. */
  lemma GatherRearrangedOk<T>(s: seq<T>, a: seq<int>, b: seq<int>)
    requires multiset(a) == multiset(b)
    ensures Gather(s, a).Ok? <==> Gather(s, b).Ok?
  {
    forall k | 0 <= k < |a| ensures a[k] in b { assert a[k] in multiset(b); }
    forall k | 0 <= k < |b| ensures b[k] in a { assert b[k] in multiset(a); }
  }

  /** Rearranged indices gather a rearrangement of the values. */
  lemma {:induction false} LookedRearranged<T>(s: seq<T>, a: seq<int>, b: seq<int>)
    requires multiset(a) == multiset(b)
    requires forall k :: 0 <= k < |a| ==> ValidIndex(|s|, a[k])
    requires forall k :: 0 <= k < |b| ==> ValidIndex(|s|, b[k])
    ensures multiset(Looked(s, a)) == multiset(Looked(s, b))
    decreases |a|
  {
    assert |a| == |multiset(a)| == |multiset(b)| == |b|;
    if |a| > 0 {
      assert a[0] in multiset(b);
      var k :| 0 <= k < |b| && b[k] == a[0];
      MultisetRemove(a, 0);
      MultisetRemove(b, k);
      assert multiset(Remove(a, 0)) == multiset(a) - multiset{a[0]};
      assert multiset(Remove(b, k)) == multiset(b) - multiset{b[k]};
      LookedRemove(s, a, 0);
      LookedRemove(s, b, k);
      LookedRearranged(s, Remove(a, 0), Remove(b, k));
      MultisetRemove(Looked(s, a), 0);
      MultisetRemove(Looked(s, b), k);
    }
  }

  /** Rearranging the indices rearranges the gathered values the same way. */
  lemma GatherRearranged<T>(s: seq<T>, a: seq<int>, b: seq<int>)
    requires multiset(a) == multiset(b)
    requires Gather(s, a).Ok?
    ensures Gather(s, b).Ok?
    ensures multiset(Gather(s, a).value) == multiset(Gather(s, b).value)
  {
    GatherRearrangedOk(s, a, b);
    LookedRearranged(s, a, b);
    assert Gather(s, a).value == Looked(s, a);
    assert Gather(s, b).value == Looked(s, b);
  }
}

=== FILE: grid.dfy ===
/** The discrete price grid every environment builds with
    `np.linspace(lo, hi, n)`: n equally spaced points from lo to hi inclusive. */
module PriceGrid {

  ghost predicate NonDecreasing(s: seq<real>) {
    forall j, k :: 0 <= j < k < |s| ==> s[j] <= s[k]
  }

  ghost predicate StrictlyIncreasing(s: seq<real>) {
    forall j, k :: 0 <= j < k < |s| ==> s[j] < s[k]
  }

  ghost predicate Within(s: seq<real>, lo: real, hi: real) {
    forall k :: 0 <= k < |s| ==> lo <= s[k] <= hi
  }

  /** k steps of size d/m, for 0 <= k <= m, stay within [0, d] and grow with k. */
  lemma ScaledStep(j: nat, k: nat, m: nat, d: real)
    requires j <= k <= m && 0 < m && 0.0 <= d
    ensures 0.0 <= (j as real) * (d / (m as real)) <= (k as real) * (d / (m as real)) <= d
    ensures j < k && 0.0 < d ==> (j as real) * (d / (m as real)) < (k as real) * (d / (m as real))
  {
    var step := d / (m as real);
    assert 0.0 <= step;
    assert step * (m as real) == d;
    assert (k as real) * step <= (m as real) * step;
    assert (j as real) * step <= (k as real) * step;
    if j < k && 0.0 < d {
      assert 0.0 < step;
      assert (j as real) * step < (k as real) * step;
    }
  }

  /** The k-th of n grid points; numpy gives the single point lo when n == 1. */
  function Point(lo: real, hi: real, n: nat, k: nat): real
    requires k < n
  {
    if n == 1 then lo else lo + (k as real) * ((hi - lo) / ((n - 1) as real))
  }

  /** Two grid points, the j-th and the k-th with j <= k, lie in [lo, hi] in
      that order, strictly so when lo < hi and j < k. */
  lemma PointPair(lo: real, hi: real, n: nat, j: nat, k: nat)
    requires lo <= hi && j <= k < n
    ensures lo <= Point(lo, hi, n, j) <= Point(lo, hi, n, k) <= hi
    ensures j < k && lo < hi ==> Point(lo, hi, n, j) < Point(lo, hi, n, k)
  {
    if n >= 2 {
      var step := (hi - lo) / ((n - 1) as real);
      ScaledStep(j, k, n - 1, hi - lo);
      Shifted(lo, hi, (j as real) * step, (k as real) * step);
      assert Point(lo, hi, n, j) == lo + (j as real) * step;
      assert Point(lo, hi, n, k) == lo + (k as real) * step;
    }
  }

  /** Offsets 0 <= x <= y <= hi - lo from lo stay inside [lo, hi], in order. */
  lemma Shifted(lo: real, hi: real, x: real, y: real)
    requires 0.0 <= x <= y <= hi - lo
    ensures lo <= lo + x <= lo + y <= hi
    ensures x < y ==> lo + x < lo + y
  {
  }

  /** The last of n >= 2 points is hi. */
  lemma LastPoint(lo: real, hi: real, n: nat)
    requires n >= 2
    ensures Point(lo, hi, n, n - 1) == hi
  {
    var step := (hi - lo) / ((n - 1) as real);
    assert ((n - 1) as real) * step == hi - lo;
  }

  /** The grid's points run from lo to hi, in order. */
  lemma PointsOrdered(lo: real, hi: real, n: nat)
    ensures n >= 2 ==> Point(lo, hi, n, n - 1) == hi
    ensures lo <= hi ==> forall j, k :: 0 <= j <= k < n ==> lo <= Point(lo, hi, n, j) <= Point(lo, hi, n, k) <= hi
    ensures lo < hi ==> forall j, k :: 0 <= j < k < n ==> Point(lo, hi, n, j) < Point(lo, hi, n, k)
  {
    if n >= 2 {
      LastPoint(lo, hi, n);
    }
    if lo <= hi {
      forall j, k | 0 <= j <= k < n
        ensures lo <= Point(lo, hi, n, j) <= Point(lo, hi, n, k) <= hi
        ensures j < k && lo < hi ==> Point(lo, hi, n, j) < Point(lo, hi, n, k)
      {
        PointPair(lo, hi, n, j, k);
      }
    }
  }

  /** Neighbouring grid points lie one step (hi - lo)/(n - 1) apart. */
  lemma EvenSteps(lo: real, hi: real, n: nat)
    ensures forall k :: 0 <= k < n - 1 ==> Point(lo, hi, n, k + 1) - Point(lo, hi, n, k) == (hi - lo) / ((n - 1) as real)
  {
    if n >= 2 {
      var step := (hi - lo) / ((n - 1) as real);
      forall k | 0 <= k < n - 1
        ensures Point(lo, hi, n, k + 1) - Point(lo, hi, n, k) == step
      {
        assert ((k + 1) as real) * step == (k as real) * step + step;
      }
    }
  }

  /** `np.linspace(lo, hi, n)`. */
  function Linspace(lo: real, hi: real, n: nat): (r: seq<real>)
    ensures |r| == n
    ensures n >= 1 ==> r[0] == lo
    ensures n >= 2 ==> r[n - 1] == hi
    ensures forall k :: 0 <= k < n - 1 ==> r[k + 1] - r[k] == (hi - lo) / ((n - 1) as real)
    ensures lo <= hi ==> Within(r, lo, hi) && NonDecreasing(r)
    ensures lo < hi ==> StrictlyIncreasing(r)
  {
    PointsOrdered(lo, hi, n);
    EvenSteps(lo, hi, n);
    seq(n, k requires 0 <= k < n => Point(lo, hi, n, k))
  }

  /** The sequential environment's grid `np.linspace(0, 1, n)` is the points
      k/(n-1): all inside [0, 1] and strictly increasing. */
  lemma UnitGrid(n: nat)
    requires n >= 2
    ensures forall k :: 0 <= k < n ==> Linspace(0.0, 1.0, n)[k] == (k as real) / ((n - 1) as real)
    ensures Within(Linspace(0.0, 1.0, n), 0.0, 1.0)
    ensures StrictlyIncreasing(Linspace(0.0, 1.0, n))
  {
    var r := Linspace(0.0, 1.0, n);
    forall k | 0 <= k < n
      ensures r[k] == (k as real) / ((n - 1) as real)
    {
      assert r[k] == 0.0 + (k as real) * (1.0 / ((n - 1) as real));
    }
  }
}

=== FILE: logit.dfy ===
/** `LogitDemandPricingEnv`: two firms pick indices into one price grid and
    customers choose between the two goods and an outside option with Logit
    probabilities. The state is the pair of indices played last.

    The exponential is a parameter `exp`: the model assumes of it only what
    each property needs (positive everywhere, or also strictly increasing). */
module LogitPricing {
  import opened Common
  import PriceGrid

  /** The environment's fields. `beta` is stored and never read; `state` is
      None until the first `reset` or `step` creates the attribute. */
  datatype Env = Env(
    gridSize: nat,
    prices: seq<real>,
    cost: real,
    beta: real,
    a0: real,
    a12: real,
    mu: real,
    state: Option<(int, int)>)

  /** What `step` returns: the observation, the two profits, the two episode
      flags (the info dictionary is always empty). */
  datatype Outcome = Outcome(observation: (int, int), rewards: (real, real), terminated: bool, truncated: bool)

  ghost predicate Positive(exp: real -> real) {
    forall x :: 0.0 < exp(x)
  }

  ghost predicate Increasing(exp: real -> real) {
    forall x, y :: x < y ==> exp(x) < exp(y)
  }

  /** The constructor: the grid `np.linspace(price_min, price_max, grid_size)`
      and the demand parameters. */
  function New(lo: real, hi: real, gridSize: nat, cost: real, beta: real, a0: real, a12: real, mu: real): (env: Env)
    ensures env.prices == PriceGrid.Linspace(lo, hi, gridSize)
    ensures |env.prices| == env.gridSize == gridSize
    ensures gridSize >= 1 ==> env.prices[0] == lo
    ensures gridSize >= 2 ==> env.prices[gridSize - 1] == hi
    ensures env.cost == cost && env.beta == beta && env.a0 == a0 && env.a12 == a12 && env.mu == mu
    ensures lo <= hi ==> PriceGrid.Within(env.prices, lo, hi) && PriceGrid.NonDecreasing(env.prices)
    ensures lo < hi ==> PriceGrid.StrictlyIncreasing(env.prices)
    ensures env.state == None
  {
    Env(gridSize, PriceGrid.Linspace(lo, hi, gridSize), cost, beta, a0, a12, mu, None)
  }

  /** The weight `np.exp((a_12 - p) / mu)` of a good priced p. */
  function Weight(env: Env, exp: real -> real, p: real): (w: real)
    requires env.mu != 0.0
    ensures Positive(exp) ==> 0.0 < w
  {
    exp((env.a12 - p) / env.mu)
  }

  /** The outside option's weight `np.exp(a_0 / mu)`. */
  function OutsideWeight(env: Env, exp: real -> real): (w: real)
    requires env.mu != 0.0
    ensures Positive(exp) ==> 0.0 < w
  {
    exp(env.a0 / env.mu)
  }

  /** Shares of three positive weights: each good's share is positive and
      the outside option keeps the rest. */
  lemma ThreeWayShares(x: real, y: real, z: real)
    requires 0.0 < x && 0.0 < y && 0.0 < z
    ensures 0.0 < x / (x + y + z) && 0.0 < y / (x + y + z)
    ensures x / (x + y + z) + y / (x + y + z) + z / (x + y + z) == 1.0
    ensures x / (x + y + z) + y / (x + y + z) < 1.0
  {
    var s := x + y + z;
    assert x / s + y / s + z / s == (x + y + z) / s;
    assert 0.0 < z / s;
  }

  /** The Logit shares `d_i`, `d_j` at prices pi, pj: each good's weight over
      the sum of both goods' weights and the outside option's. */
  function Shares(env: Env, exp: real -> real, pi: real, pj: real): (d: (real, real))
    requires env.mu != 0.0 && Positive(exp)
    ensures 0.0 < d.0 && 0.0 < d.1 && d.0 + d.1 < 1.0
  {
    var wi, wj, w0 := Weight(env, exp, pi), Weight(env, exp, pj), OutsideWeight(env, exp);
    ThreeWayShares(wi, wj, w0);
    var deno := wi + wj + w0;
    (wi / deno, wj / deno)
  }

  /** The outside option's share is what the two goods leave: its weight over
      the same denominator. */
  lemma OutsideShare(env: Env, exp: real -> real, pi: real, pj: real)
    requires env.mu != 0.0 && Positive(exp)
    ensures var wi, wj, w0 := Weight(env, exp, pi), Weight(env, exp, pj), OutsideWeight(env, exp);
            1.0 - Shares(env, exp, pi, pj).0 - Shares(env, exp, pi, pj).1 == w0 / (wi + wj + w0)
  {
    var wi, wj, w0 := Weight(env, exp, pi), Weight(env, exp, pj), OutsideWeight(env, exp);
    ThreeWayShares(wi, wj, w0);
  }

  /** Relabelling the two goods relabels the shares. */
  lemma SharesSymmetric(env: Env, exp: real -> real, pi: real, pj: real)
    requires env.mu != 0.0 && Positive(exp)
    ensures Shares(env, exp, pj, pi).0 == Shares(env, exp, pi, pj).1
    ensures Shares(env, exp, pj, pi).1 == Shares(env, exp, pi, pj).0
  {
    var wi, wj, w0 := Weight(env, exp, pi), Weight(env, exp, pj), OutsideWeight(env, exp);
    assert wj + wi + w0 == wi + wj + w0;
  }

  /** Two parts of x + c > 0 whose shares are a and b make up the whole. */
  lemma PartsAddUp(a: real, b: real, x: real, c: real)
    requires 0.0 < x + c && a * (x + c) == x && b * (x + c) == c
    ensures a + b == 1.0
  {
    assert (a + b) * (x + c) == x + c;
  }

  /** x's share of x + c is what c's share leaves. */
  lemma Complement(x: real, c: real)
    requires 0.0 < x + c
    ensures x / (x + c) == 1.0 - c / (x + c)
  {
    PartsAddUp(x / (x + c), c / (x + c), x, c);
  }

  /** x / (x + c) grows with x when c > 0. */
  lemma ShareGrowsWithWeight(x: real, y: real, c: real)
    requires 0.0 < x < y && 0.0 < c
    ensures x / (x + c) < y / (y + c)
  {
    Complement(x, c);
    Complement(y, c);
    ShareShrinksWithRivalWeight(c, x, y, c);
  }

  /** u / (x + c) shrinks as x grows when u > 0 and x + c > 0. */
  lemma ShareShrinksWithRivalWeight(u: real, x: real, y: real, c: real)
    requires 0.0 < u && 0.0 < x < y && 0.0 < c
    ensures u / (y + c) < u / (x + c)
  {
  }

  /** A higher price means a lower weight when mu > 0 and exp is increasing. */
  lemma WeightFalls(env: Env, exp: real -> real, p: real, q: real)
    requires 0.0 < env.mu && Increasing(exp)
    requires p < q
    ensures Weight(env, exp, q) < Weight(env, exp, p)
  {
    var u, v := (env.a12 - q) / env.mu, (env.a12 - p) / env.mu;
    assert u < v by {
      assert u * env.mu == env.a12 - q;
      assert v * env.mu == env.a12 - p;
    }
  }

  /** With the rival's price fixed, raising one's own price strictly lowers
      one's own share and strictly raises the rival's. */
  lemma OwnPriceLowersShare(env: Env, exp: real -> real, pi: real, pi': real, pj: real)
    requires 0.0 < env.mu && Positive(exp) && Increasing(exp)
    requires pi < pi'
    ensures Shares(env, exp, pi', pj).0 < Shares(env, exp, pi, pj).0
    ensures Shares(env, exp, pi, pj).1 < Shares(env, exp, pi', pj).1
  {
    var wi, wi', wj, w0 := Weight(env, exp, pi), Weight(env, exp, pi'), Weight(env, exp, pj), OutsideWeight(env, exp);
    WeightFalls(env, exp, pi, pi');
    ShareGrowsWithWeight(wi', wi, wj + w0);
    ShareShrinksWithRivalWeight(wj, wi', wi, wj + w0);
    assert wi + wj + w0 == wi + (wj + w0);
    assert wi' + wj + w0 == wi' + (wj + w0);
  }

  /** Of two goods, the cheaper one sells more when mu > 0 and exp is
      increasing. */
  lemma CheaperGoodSellsMore(env: Env, exp: real -> real, pi: real, pj: real)
    requires 0.0 < env.mu && Positive(exp) && Increasing(exp)
    requires pi < pj
    ensures Shares(env, exp, pi, pj).1 < Shares(env, exp, pi, pj).0
  {
    var wi, wj, w0 := Weight(env, exp, pi), Weight(env, exp, pj), OutsideWeight(env, exp);
    WeightFalls(env, exp, pi, pj);
    LargerPartLargerShare(wj, wi, wi + wj + w0);
  }

  lemma LargerPartLargerShare(x: real, y: real, s: real)
    requires x < y && 0.0 < s
    ensures x / s < y / s
  {
  }

  /** `step`: look both prices up (firm i's first), then divide by mu, which
      Python refuses for mu == 0 when a_0 and mu are plain numbers; the state
      becomes the action pair, which is also the observation, and the episode
      never ends. */
  function Step(env: Env, exp: real -> real, ai: int, aj: int): (r: Result<(Env, Outcome)>)
    requires Positive(exp)
    ensures r.Ok? <==> ValidIndex(|env.prices|, ai) && ValidIndex(|env.prices|, aj) && env.mu != 0.0
    ensures r.Err? ==> r.error == if !ValidIndex(|env.prices|, ai) then IndexOutOfRange(ai)
                                  else if !ValidIndex(|env.prices|, aj) then IndexOutOfRange(aj)
                                  else ZeroDivision
    ensures r.Ok? ==>
              var (env', out) := r.value;
              && out.observation == (ai, aj)
              && env'.state == Some(out.observation)
              && env' == env.(state := env'.state)
              && !out.terminated && !out.truncated
  {
    var pi :- At(env.prices, ai);
    var pj :- At(env.prices, aj);
    if env.mu == 0.0 then Err(ZeroDivision)
    else
      var d := Shares(env, exp, pi, pj);
      var rewards := ((pi - env.cost) * d.0, (pj - env.cost) * d.1);
      Ok((env.(state := Some((ai, aj))), Outcome((ai, aj), rewards, false, false)))
  }

  /** Each profit is the firm's margin times its Logit share. */
  lemma StepProfits(env: Env, exp: real -> real, ai: int, aj: int)
    requires Positive(exp) && Step(env, exp, ai, aj).Ok?
    ensures env.mu != 0.0
    ensures var pi, pj := Item(env.prices, ai), Item(env.prices, aj);
            && Step(env, exp, ai, aj).value.1.rewards.0 == (pi - env.cost) * Shares(env, exp, pi, pj).0
            && Step(env, exp, ai, aj).value.1.rewards.1 == (pj - env.cost) * Shares(env, exp, pi, pj).1
  {
    assert At(env.prices, ai) == Ok(Item(env.prices, ai));
    assert At(env.prices, aj) == Ok(Item(env.prices, aj));
  }

  /** Two firms choosing the same index get the same share and the same
      profit. */
  lemma SameActionSameOutcome(env: Env, exp: real -> real, a: int)
    requires Positive(exp) && Step(env, exp, a, a).Ok?
    ensures env.mu != 0.0
    ensures Shares(env, exp, Item(env.prices, a), Item(env.prices, a)).0 == Shares(env, exp, Item(env.prices, a), Item(env.prices, a)).1
    ensures Shares(env, exp, Item(env.prices, a), Item(env.prices, a)).0 < 0.5
    ensures Step(env, exp, a, a).value.1.rewards.0 == Step(env, exp, a, a).value.1.rewards.1
  {
    StepProfits(env, exp, a, a);
  }

  /** Swapping the two actions swaps the two shares and the two profits. */
  lemma SwapFirms(env: Env, exp: real -> real, ai: int, aj: int)
    requires Positive(exp) && Step(env, exp, ai, aj).Ok?
    ensures Step(env, exp, aj, ai).Ok?
    ensures var pi, pj := Item(env.prices, ai), Item(env.prices, aj);
            && Shares(env, exp, pj, pi).0 == Shares(env, exp, pi, pj).1
            && Shares(env, exp, pj, pi).1 == Shares(env, exp, pi, pj).0
    ensures Step(env, exp, aj, ai).value.1.rewards.0 == Step(env, exp, ai, aj).value.1.rewards.1
    ensures Step(env, exp, aj, ai).value.1.rewards.1 == Step(env, exp, ai, aj).value.1.rewards.0
  {
    StepProfits(env, exp, ai, aj);
    StepProfits(env, exp, aj, ai);
    SharesSymmetric(env, exp, Item(env.prices, ai), Item(env.prices, aj));
  }

  /** A positive share times a margin has the margin's sign. */
  lemma MarginSign(m: real, d: real)
    requires 0.0 < d
    ensures 0.0 < m * d <==> 0.0 < m
    ensures m * d == 0.0 <==> m == 0.0
    ensures m * d < 0.0 <==> m < 0.0
  {
  }

  /** Every share is positive, so each firm's profit has the sign of its
      margin: positive above cost, zero at cost, negative below. */
  lemma ProfitSign(env: Env, exp: real -> real, ai: int, aj: int)
    requires Positive(exp) && Step(env, exp, ai, aj).Ok?
    ensures var r := Step(env, exp, ai, aj).value.1.rewards;
            && (0.0 < r.0 <==> env.cost < Item(env.prices, ai))
            && (r.0 == 0.0 <==> Item(env.prices, ai) == env.cost)
            && (r.0 < 0.0 <==> Item(env.prices, ai) < env.cost)
            && (0.0 < r.1 <==> env.cost < Item(env.prices, aj))
            && (r.1 == 0.0 <==> Item(env.prices, aj) == env.cost)
            && (r.1 < 0.0 <==> Item(env.prices, aj) < env.cost)
  {
    StepProfits(env, exp, ai, aj);
    var pi, pj := Item(env.prices, ai), Item(env.prices, aj);
    var d := Shares(env, exp, pi, pj);
    MarginSign(pi - env.cost, d.0);
    MarginSign(pj - env.cost, d.1);
  }

  /** `reset`: `np.random.randint(grid_size)` twice, independently; the pair
      drawn becomes the state and the observation (the info dictionary it
      also returns is always empty). With no index to draw, numpy raises. */
  method Reset(env: Env) returns (r: Result<(Env, (int, int))>)
    ensures r.Ok? <==> 0 < env.gridSize
    ensures r.Err? ==> r.error == EmptyRange
    ensures r.Ok? ==>
              var (env', obs) := r.value;
              && 0 <= obs.0 < env.gridSize && 0 <= obs.1 < env.gridSize
              && env'.state == Some(obs)
              && env' == env.(state := env'.state)
  {
    if env.gridSize == 0 {
      return Err(EmptyRange);
    }
    var ai :| 0 <= ai < env.gridSize;
    var aj :| 0 <= aj < env.gridSize;
    return Ok((env.(state := Some((ai, aj))), (ai, aj)));
  }

  /** The state a reset leaves is a valid action: stepping on it succeeds
      whenever mu != 0. */
  lemma StateIsPlayable(lo: real, hi: real, gridSize: nat, cost: real, beta: real, a0: real, a12: real, mu: real,
                        exp: real -> real, ai: int, aj: int)
    requires Positive(exp) && mu != 0.0
    requires 0 <= ai < gridSize && 0 <= aj < gridSize
    ensures Step(New(lo, hi, gridSize, cost, beta, a0, a12, mu), exp, ai, aj).Ok?
    ensures Step(New(lo, hi, gridSize, cost, beta, a0, a12, mu), exp, ai, aj).value.0.state == Some((ai, aj))
  {
  }
}

=== FILE: sequential.dfy ===
/** `SequentialPricingEnv`: the Klein (2021) linear-demand market for n firms
    with homogeneous goods. Prices come from `np.linspace(0, 1, n_prices)`;
    the firm (or firms) at the lowest price serve the whole market of size
    `1 - p`, and profit is price times demand, with no cost term. */
module SequentialPricing {
  import opened Common
  import PriceGrid

  /** The environment's fields. `previousPricesIdx` is None until the first
      step creates the attribute; `step` never writes `previousPrices`. */
  datatype Env = Env(
    nFirms: nat,
    prices: seq<real>,
    previousPrices: seq<int>,
    previousPricesIdx: Option<seq<int>>,
    previousProfit: seq<real>)

  /** What `step` returns: the observation, the profit vector, the two episode
      flags, and the info dictionary's "profit" and "price" entries. */
  datatype StepOutcome = StepOutcome(
    observation: seq<int>,
    profit: seq<real>,
    terminated: bool,
    truncated: bool,
    infoProfit: seq<real>,
    infoPrice: seq<real>)

  function Zeros(n: nat): (z: seq<int>)
    ensures |z| == n && forall k :: 0 <= k < n ==> z[k] == 0
  {
    seq(n, _ => 0)
  }

  function RealZeros(n: nat): (z: seq<real>)
    ensures |z| == n && forall k :: 0 <= k < n ==> z[k] == 0.0
  {
    seq(n, _ => 0.0)
  }

  /** `reset`: the previous prices and profits go back to all zeros and the
      zero price vector is the observation (the info dictionary it also
      returns is always empty). */
  function Reset(env: Env): (res: (Env, seq<int>))
    ensures res.1 == res.0.previousPrices
    ensures |res.1| == env.nFirms && forall k :: 0 <= k < |res.1| ==> res.1[k] == 0
    ensures |res.0.previousProfit| == env.nFirms && forall k :: 0 <= k < env.nFirms ==> res.0.previousProfit[k] == 0.0
    ensures res.0.nFirms == env.nFirms && res.0.prices == env.prices
    ensures res.0.previousPricesIdx == env.previousPricesIdx
  {
    var env' := env.(previousPrices := Zeros(env.nFirms), previousProfit := RealZeros(env.nFirms));
    (env', env'.previousPrices)
  }

  /** The constructor: the unit price grid, then `reset`. */
  function New(nFirms: nat, nPrices: nat): (env: Env)
    ensures env.nFirms == nFirms && env.prices == PriceGrid.Linspace(0.0, 1.0, nPrices)
    ensures |env.prices| == nPrices && PriceGrid.Within(env.prices, 0.0, 1.0)
    ensures PriceGrid.StrictlyIncreasing(env.prices)
    ensures env.previousPrices == Zeros(nFirms) && env.previousPricesIdx == None
    ensures env.previousProfit == RealZeros(nFirms)
  {
    Reset(Env(nFirms, PriceGrid.Linspace(0.0, 1.0, nPrices), Zeros(nFirms), None, RealZeros(nFirms))).0
  }

  /** A new environment's price k is k/(n_prices - 1). */
  lemma NewPrices(nFirms: nat, nPrices: nat)
    requires nPrices >= 2
    ensures forall k :: 0 <= k < nPrices ==> New(nFirms, nPrices).prices[k] == (k as real) / ((nPrices - 1) as real)
  {
    PriceGrid.UnitGrid(nPrices);
  }

  /** The lowest of the first n entries of s. */
  function LowestOf(s: seq<real>, n: nat): (m: real)
    requires 0 < n <= |s|
    ensures exists k :: 0 <= k < n && s[k] == m
    ensures forall k :: 0 <= k < n ==> m <= s[k]
    decreases n
  {
    if n == 1 then s[0]
    else
      var rest := LowestOf(s, n - 1);
      if s[n - 1] < rest then s[n - 1] else rest
  }

  /** `np.min` of a non-empty array: an entry no other entry is below. */
  function MinOf(s: seq<real>): (m: real)
    requires |s| > 0
    ensures m in s
    ensures forall k :: 0 <= k < |s| ==> m <= s[k]
  {
    LowestOf(s, |s|)
  }

  /** The lowest competitor price is the price of some other firm, and no
      other firm charges less. */
  lemma LowestCompetitor(p: seq<real>, i: nat)
    requires 2 <= |p| && i < |p|
    ensures forall k :: 0 <= k < |p| && k != i ==> MinOf(Remove(p, i)) <= p[k]
    ensures exists k :: 0 <= k < |p| && k != i && p[k] == MinOf(Remove(p, i))
  {
    var w := Remove(p, i);
    forall k | 0 <= k < |p| && k != i
      ensures MinOf(w) <= p[k]
    {
      if k < i { assert w[k] == p[k]; } else { assert w[k - 1] == p[k]; }
    }
    var t :| 0 <= t < |w| && w[t] == MinOf(w);
    if t < i { assert p[t] == MinOf(w); } else { assert p[t + 1] == MinOf(w); }
  }

  /** How many of the first n entries of s equal x. */
  function CountAmong(s: seq<real>, x: real, n: nat): (c: nat)
    requires n <= |s|
    ensures c <= n
    ensures (exists k :: 0 <= k < n && s[k] == x) ==> 1 <= c
    decreases n
  {
    if n == 0 then 0 else CountAmong(s, x, n - 1) + (if s[n - 1] == x then 1 else 0)
  }

  /** `np.sum(prices == x)`: how many entries of s equal x. */
  function Count(s: seq<real>, x: real): (c: nat)
    ensures c <= |s|
    ensures x in s ==> 1 <= c
  {
    CountAmong(s, x, |s|)
  }

  /** Counting the first n entries gives the multiplicity of x among them. */
  lemma {:induction false} CountAmongIsMultiplicity(s: seq<real>, x: real, n: nat)
    requires n <= |s|
    ensures CountAmong(s, x, n) == multiset(s[..n])[x]
    decreases n
  {
    if n > 0 {
      CountAmongIsMultiplicity(s, x, n - 1);
      assert s[..n] == s[..n - 1] + [s[n - 1]];
      assert multiset(s[..n]) == multiset(s[..n - 1]) + multiset{s[n - 1]};
    }
  }

  /** The count is the multiplicity of x in the multiset of s's entries. */
  lemma CountIsMultiplicity(s: seq<real>, x: real)
    ensures Count(s, x) == multiset(s)[x]
  {
    CountAmongIsMultiplicity(s, x, |s|);
    assert s[..|s|] == s;
  }

  /** A price no other firm charges occurs exactly once. */
  lemma UniquePrice(p: seq<real>, i: nat)
    requires i < |p|
    requires forall j :: 0 <= j < |p| && j != i ==> p[j] != p[i]
    ensures Count(p, p[i]) == 1
  {
    assert p == p[..i] + [p[i]] + p[i+1..];
    assert multiset(p) == multiset(p[..i]) + multiset{p[i]} + multiset(p[i+1..]);
    assert p[i] !in p[..i];
    assert p[i] !in p[i+1..];
    CountIsMultiplicity(p, p[i]);
  }

  /** A price some firm charges is counted at least once. */
  lemma CountCharged(p: seq<real>, i: nat)
    requires i < |p|
    ensures Count(p, p[i]) >= 1
  {
    CountIsMultiplicity(p, p[i]);
    assert p[i] in multiset(p);
  }

  /** How firm i's price compares with its lowest competitor's tells whether
      it charges the overall lowest price. */
  lemma CompareWithCompetitors(p: seq<real>, i: nat)
    requires 2 <= |p| && i < |p|
    ensures p[i] <= MinOf(Remove(p, i)) ==> p[i] == MinOf(p)
    ensures p[i] < MinOf(Remove(p, i)) ==> Count(p, p[i]) == 1
    ensures p[i] > MinOf(Remove(p, i)) ==> MinOf(p) < p[i]
  {
    LowestCompetitor(p, i);
    var k :| 0 <= k < |p| && k != i && p[k] == MinOf(Remove(p, i));
    var t :| 0 <= t < |p| && p[t] == MinOf(p);
    if p[i] < MinOf(Remove(p, i)) {
      UniquePrice(p, i);
    }
  }

  /** Firm i's demand when the firms charge the prices p: the body of the loop
      in `_calculate_demand`, which compares the firm's price with its lowest
      competitor's. */
  function FirmDemand(p: seq<real>, i: nat): real
    requires 2 <= |p| && i < |p|
  {
    CountCharged(p, i);
    var own := p[i];
    var lowest := MinOf(Remove(p, i));
    if own < lowest then 1.0 - own
    else if own == lowest then (1.0 - own) / (Count(p, own) as real)
    else 0.0
  }

  /** The three branches of the loop body, one lemma each. */
  lemma BelowCompetitors(p: seq<real>, i: nat)
    requires 2 <= |p| && i < |p| && p[i] < MinOf(Remove(p, i))
    ensures FirmDemand(p, i) == 1.0 - p[i]
  {
  }

  lemma LevelWithCompetitors(p: seq<real>, i: nat)
    requires 2 <= |p| && i < |p| && p[i] == MinOf(Remove(p, i))
    ensures Count(p, p[i]) >= 1
    ensures FirmDemand(p, i) == (1.0 - p[i]) / (Count(p, p[i]) as real)
  {
    CountCharged(p, i);
  }

  /** A firm below all its competitors is alone at the overall lowest price,
      so its whole-market demand is the even share among one firm. */
  lemma BelowGetsEvenShare(p: seq<real>, i: nat)
    requires 2 <= |p| && i < |p| && p[i] < MinOf(Remove(p, i))
    ensures p[i] == MinOf(p) && FirmDemand(p, i) == (1.0 - MinOf(p)) / (Count(p, MinOf(p)) as real)
  {
    CompareWithCompetitors(p, i);
    BelowCompetitors(p, i);
    SoleShare(1.0 - MinOf(p), Count(p, MinOf(p)));
  }

  /** A market shared by one firm is that firm's alone. */
  lemma SoleShare(a: real, c: nat)
    requires c == 1
    ensures a / (c as real) == a
  {
  }

  /** A firm level with its lowest competitor charges the overall lowest price
      and gets the even share. */
  lemma LevelGetsEvenShare(p: seq<real>, i: nat)
    requires 2 <= |p| && i < |p| && p[i] == MinOf(Remove(p, i))
    ensures p[i] == MinOf(p) && FirmDemand(p, i) == (1.0 - MinOf(p)) / (Count(p, MinOf(p)) as real)
  {
    CompareWithCompetitors(p, i);
    LevelWithCompetitors(p, i);
  }

  lemma AboveCompetitors(p: seq<real>, i: nat)
    requires 2 <= |p| && i < |p| && p[i] > MinOf(Remove(p, i))
    ensures FirmDemand(p, i) == 0.0
  {
  }

  /** The demand rule in closed form: the firms at the overall lowest price
      each get the even share of the market at that price, and every other
      firm gets 0. */
  lemma DemandClosedForm(p: seq<real>, i: nat)
    requires 2 <= |p| && i < |p|
    ensures FirmDemand(p, i) == if p[i] == MinOf(p) then (1.0 - MinOf(p)) / (Count(p, MinOf(p)) as real) else 0.0
  {
    CompareWithCompetitors(p, i);
    var lowest := MinOf(Remove(p, i));
    if p[i] < lowest {
      BelowGetsEvenShare(p, i);
    } else if p[i] == lowest {
      LevelGetsEvenShare(p, i);
    } else {
      AboveCompetitors(p, i);
    }
  }

  /** A firm whose price is strictly below every competitor's takes the whole
      market, 1 minus its price. */
  lemma SoleLowestTakesMarket(p: seq<real>, i: nat)
    requires 2 <= |p| && i < |p|
    requires forall j :: 0 <= j < |p| && j != i ==> p[i] < p[j]
    ensures FirmDemand(p, i) == 1.0 - p[i]
  {
    UniquePrice(p, i);
    var t :| 0 <= t < |p| && p[t] == MinOf(p);
  }

  /** Two firms charging the same price make that price occur at least twice. */
  lemma SharedPrice(p: seq<real>, i: nat, j: nat)
    requires i < |p| && j < |p| && j != i && p[j] == p[i]
    ensures Count(p, p[i]) >= 2
  {
    assert p == p[..i] + [p[i]] + p[i+1..];
    assert multiset(p) == multiset(p[..i]) + multiset{p[i]} + multiset(p[i+1..]);
    if j < i {
      assert p[..i][j] == p[i];
    } else {
      assert p[i+1..][j - i - 1] == p[i];
    }
    CountIsMultiplicity(p, p[i]);
  }

  /** Firms tied at the lowest price split the market 1 - p equally among the
      k >= 2 firms charging exactly p. */
  lemma TiedFirmsSplit(p: seq<real>, i: nat, j: nat)
    requires 2 <= |p| && i < |p| && j < |p| && j != i
    requires p[j] == p[i]
    requires forall k :: 0 <= k < |p| ==> p[i] <= p[k]
    ensures Count(p, p[i]) >= 2
    ensures FirmDemand(p, i) == (1.0 - p[i]) / (Count(p, p[i]) as real)
  {
    SharedPrice(p, i, j);
    LowestCompetitor(p, i);
    assert p[i] == MinOf(Remove(p, i));
    LevelWithCompetitors(p, i);
  }

  /** A firm some competitor undercuts sells nothing. */
  lemma UndercutGetsNothing(p: seq<real>, i: nat, j: nat)
    requires 2 <= |p| && i < |p| && j < |p|
    requires p[j] < p[i]
    ensures FirmDemand(p, i) == 0.0
  {
    LowestCompetitor(p, i);
    AboveCompetitors(p, i);
  }

  /** `_calculate_demand`: look the prices up, then apply FirmDemand to each
      of the first nFirms entries, every other entry counting as a competitor. */
  function CalculateDemand(env: Env, action: seq<int>): (r: Result<seq<real>>)
    ensures r.Ok? <==> Gather(env.prices, action).Ok? && (env.nFirms == 0 || (2 <= |action| && env.nFirms <= |action|))
    ensures r.Ok? ==> |r.value| == env.nFirms
    ensures r.Err? ==> r.error == if Gather(env.prices, action).Err? then Gather(env.prices, action).error
                                  else if |action| == 0 then IndexOutOfRange(0)
                                  else if |action| == 1 then EmptyCompetitors
                                  else IndexOutOfRange(|action|)
  {
    var p :- Gather(env.prices, action);
    if env.nFirms == 0 then Ok([])
    else if |p| == 0 then Err(IndexOutOfRange(0))          // prices[0] on an empty list
    else if |p| == 1 then Err(EmptyCompetitors)            // np.min of no competitors
    else if |p| < env.nFirms then Err(IndexOutOfRange(|p|)) // prices[i] past the list's end
    else Ok(seq(env.nFirms, i requires 0 <= i < env.nFirms => FirmDemand(p, i)))
  }

  /** numpy's `a * b` for one-dimensional arrays: equal lengths multiply
      entrywise, and a length-1 array is stretched to the other's length. */
  function Broadcast(a: seq<real>, b: seq<real>): (r: Result<seq<real>>)
    ensures r.Ok? <==> |a| == |b| || |a| == 1 || |b| == 1
    ensures r.Ok? ==> |r.value| == (if |a| == 1 then |b| else |a|)
  {
    if |a| == |b| then Ok(seq(|a|, k requires 0 <= k < |a| => a[k] * b[k]))
    else if |b| == 1 then Ok(seq(|a|, k requires 0 <= k < |a| => a[k] * b[0]))
    else if |a| == 1 then Ok(seq(|b|, k requires 0 <= k < |b| => a[0] * b[k]))
    else Err(ShapeMismatch)
  }

  /** Entry k of a broadcast product: the matching entries multiplied, with a
      length-1 side supplying its single entry every time. */
  lemma BroadcastAt(a: seq<real>, b: seq<real>, k: nat)
    requires Broadcast(a, b).Ok? && k < |Broadcast(a, b).value|
    ensures |a| == |b| ==> Broadcast(a, b).value[k] == a[k] * b[k]
    ensures |a| != |b| && |b| == 1 ==> Broadcast(a, b).value[k] == a[k] * b[0]
    ensures |a| != |b| && |a| == 1 ==> Broadcast(a, b).value[k] == a[0] * b[k]
  {
  }

  /** `_calculate_profit`: price times demand, elementwise. */
  function CalculateProfit(env: Env, action: seq<int>): (r: Result<seq<real>>)
    ensures r.Ok? <==> Gather(env.prices, action).Ok?
                       && ((2 <= |action| && (|action| == env.nFirms || env.nFirms == 1))
                           || (env.nFirms == 0 && |action| <= 1))
    ensures r.Ok? ==> |r.value| == if |action| == 1 then env.nFirms else |action|
  {
    var demand :- CalculateDemand(env, action);
    Broadcast(Gather(env.prices, action).value, demand)
  }

  /** `step`: the profit vector is computed, only `previous_prices_idx` and
      `previous_profit` are written, and the action comes back as the
      observation of a never-ending episode. A failed computation changes
      nothing. */
  function Step(env: Env, action: seq<int>): (r: Result<(Env, StepOutcome)>)
    ensures r.Ok? <==> CalculateProfit(env, action).Ok?
    ensures r.Ok? ==>
              var (env', out) := r.value;
              && out.observation == action
              && !out.terminated && !out.truncated
              && out.profit == out.infoProfit == env'.previousProfit == CalculateProfit(env, action).value
              && out.infoPrice == Gather(env.prices, action).value
              && env'.previousPricesIdx == Some(action)
              && env' == env.(previousPricesIdx := env'.previousPricesIdx, previousProfit := env'.previousProfit)
  {
    var profit :- CalculateProfit(env, action);
    var env' := env.(previousPricesIdx := Some(action), previousProfit := profit);
    Ok((env', StepOutcome(action, profit, false, false, profit, Gather(env.prices, action).value)))
  }

  /** The action vectors the environment is meant to receive: one valid grid
      index per firm, for at least two firms. */
  predicate WellFormed(env: Env, action: seq<int>) {
    2 <= env.nFirms == |action| && Gather(env.prices, action).Ok?
  }

  /** Firm i's entry of the demand vector is FirmDemand at the looked-up prices. */
  lemma DemandAt(env: Env, action: seq<int>, i: nat)
    requires CalculateDemand(env, action).Ok? && i < env.nFirms
    ensures 2 <= |action| && i < |action|
    ensures CalculateDemand(env, action).value[i] == FirmDemand(Gather(env.prices, action).value, i)
  {
  }

  /** For a well-formed action the profit vector is the price vector times
      the demand vector. */
  lemma ProfitVector(env: Env, action: seq<int>)
    requires WellFormed(env, action)
    ensures CalculateProfit(env, action) == Broadcast(Gather(env.prices, action).value, CalculateDemand(env, action).value)
  {
  }

  /** For a well-formed action each firm's profit is its price times its
      demand. */
  lemma ProfitIsPriceTimesDemand(env: Env, action: seq<int>, i: nat)
    requires WellFormed(env, action) && i < env.nFirms
    ensures |CalculateProfit(env, action).value| == env.nFirms
    ensures CalculateProfit(env, action).value[i] == Gather(env.prices, action).value[i] * CalculateDemand(env, action).value[i]
  {
    ProfitVector(env, action);
    EntrywiseAt(Gather(env.prices, action).value, CalculateDemand(env, action).value, i);
  }

  /** Entry i of the product of two equally long vectors. */
  lemma EntrywiseAt(p: seq<real>, d: seq<real>, i: nat)
    requires |p| == |d| && i < |p|
    ensures Broadcast(p, d).Ok? && |Broadcast(p, d).value| == |p|
    ensures Broadcast(p, d).value[i] == p[i] * d[i]
  {
  }

  /** Every demand lies in [0, 1] when every grid price does. */
  lemma DemandBounds(env: Env, action: seq<int>, i: nat)
    requires PriceGrid.Within(env.prices, 0.0, 1.0)
    requires CalculateDemand(env, action).Ok? && i < env.nFirms
    ensures 0.0 <= CalculateDemand(env, action).value[i] <= 1.0
  {
    DemandAt(env, action, i);
    var p := Gather(env.prices, action).value;
    assert 0.0 <= p[i] <= 1.0;
    DemandWithinMarket(p, i);
  }

  /** A firm never sells more than the market 1 - p left at its own price p. */
  lemma DemandWithinMarket(p: seq<real>, i: nat)
    requires 2 <= |p| && i < |p| && 0.0 <= p[i] <= 1.0
    ensures 0.0 <= FirmDemand(p, i) <= 1.0 - p[i]
  {
    DemandClosedForm(p, i);
    if p[i] == MinOf(p) {
      ShareBound(1.0 - MinOf(p), Count(p, MinOf(p)));
    }
  }

  /** Splitting a non-negative market among c >= 1 firms gives each at most
      the whole. */
  lemma ShareBound(a: real, c: nat)
    requires 0.0 <= a && 1 <= c
    ensures 0.0 <= a / (c as real) <= a
  {
    assert a / (c as real) * (c as real) == a;
  }

  /** The sum of the first n entries of s. */
  function SumTo(s: seq<real>, n: nat): real
    requires n <= |s|
    decreases n
  {
    if n == 0 then 0.0 else SumTo(s, n - 1) + s[n - 1]
  }

  /** `np.sum`. */
  function Sum(s: seq<real>): real {
    SumTo(s, |s|)
  }

  /** v at every position of s holding m, 0 elsewhere. */
  function Matches(s: seq<real>, m: real, v: real): (r: seq<real>)
    ensures |r| == |s|
  {
    seq(|s|, k requires 0 <= k < |s| => if s[k] == m then v else 0.0)
  }

  /** c copies of v added up. */
  function Times(c: nat, v: real): real {
    if c == 0 then 0.0 else Times(c - 1, v) + v
  }

  lemma Distribute(c: nat, v: real)
    ensures ((c + 1) as real) * v == (c as real) * v + v
  {
  }

  /** Adding up c copies of v is multiplying v by c. */
  lemma {:induction false} TimesIsProduct(c: nat, v: real)
    ensures Times(c, v) == (c as real) * v
  {
    if c > 0 {
      TimesIsProduct(c - 1, v);
      Distribute(c - 1, v);
    }
  }

  /** Summing v over the first n positions holding m adds up one v per
      position counted. */
  lemma {:induction false} SumToOverMatches(s: seq<real>, m: real, v: real, n: nat)
    requires n <= |s|
    ensures SumTo(Matches(s, m, v), n) == Times(CountAmong(s, m, n), v)
    decreases n
  {
    if n > 0 {
      SumToOverMatches(s, m, v, n - 1);
    }
  }

  /** Summing v over the positions holding m adds up one v per occurrence
      of m. */
  lemma SumOverMatches(s: seq<real>, m: real, v: real)
    ensures Sum(Matches(s, m, v)) == Times(Count(s, m), v)
  {
    SumToOverMatches(s, m, v, |s|);
  }

  /** Each firm's demand is the even share of the market at the lowest
      price m if it charges m, and 0 otherwise. */
  lemma DemandMatches(p: seq<real>, i: nat)
    requires 2 <= |p| && i < |p|
    ensures FirmDemand(p, i) == Matches(p, MinOf(p), (1.0 - MinOf(p)) / (Count(p, MinOf(p)) as real))[i]
  {
    DemandClosedForm(p, i);
  }

  /** The demand vector at prices p, written as the even share at the
      lowest price's positions and 0 elsewhere. */
  lemma DemandVector(p: seq<real>)
    requires 2 <= |p|
    ensures seq(|p|, i requires 0 <= i < |p| => FirmDemand(p, i)) == Matches(p, MinOf(p), (1.0 - MinOf(p)) / (Count(p, MinOf(p)) as real))
  {
    var d := seq(|p|, i requires 0 <= i < |p| => FirmDemand(p, i));
    forall i | 0 <= i < |p|
      ensures d[i] == Matches(p, MinOf(p), (1.0 - MinOf(p)) / (Count(p, MinOf(p)) as real))[i]
    {
      DemandMatches(p, i);
    }
  }

  /** c equal shares of a add back up to a. */
  lemma SharesAddUp(total: real, a: real, c: nat)
    requires 1 <= c && total == Times(c, a / (c as real))
    ensures total == a
  {
    TimesIsProduct(c, a / (c as real));
  }

  /** The demands at prices p add up to 1 minus the lowest price. */
  lemma MarketServed(p: seq<real>)
    requires 2 <= |p|
    ensures Sum(seq(|p|, i requires 0 <= i < |p| => FirmDemand(p, i))) == 1.0 - MinOf(p)
  {
    DemandVector(p);
    EvenSharesAddUp(p, MinOf(p), 1.0 - MinOf(p));
  }

  /** Sharing a evenly among the positions holding a value m that occurs in
      s hands out exactly a. */
  lemma EvenSharesAddUp(s: seq<real>, m: real, a: real)
    requires m in s
    ensures Sum(Matches(s, m, a / (Count(s, m) as real))) == a
  {
    var c := Count(s, m);
    SumOverMatches(s, m, a / (c as real));
    SharesAddUp(Sum(Matches(s, m, a / (c as real))), a, c);
  }

  /** The whole market is served: for a well-formed action the demands add
      up to 1 minus the lowest price charged. */
  lemma DemandsSumToMarket(env: Env, action: seq<int>)
    requires WellFormed(env, action)
    ensures Sum(CalculateDemand(env, action).value) == 1.0 - MinOf(Gather(env.prices, action).value)
  {
    var p := Gather(env.prices, action).value;
    assert CalculateDemand(env, action).value == seq(|p|, i requires 0 <= i < |p| => FirmDemand(p, i));
    MarketServed(p);
  }

  /** Two rearrangements of the same prices have the same lowest price. */
  lemma SameLowest(p: seq<real>, q: seq<real>)
    requires 0 < |p| && multiset(p) == multiset(q)
    ensures 0 < |q| && MinOf(p) == MinOf(q)
  {
    assert |p| == |multiset(p)| == |multiset(q)| == |q|;
    assert MinOf(p) in multiset(q);
    assert MinOf(q) in multiset(p);
    var a :| 0 <= a < |q| && q[a] == MinOf(p);
    var b :| 0 <= b < |p| && p[b] == MinOf(q);
  }

  /** A firm's demand depends only on its own price and on the multiset of all
      prices charged, not on which firm charges which. */
  lemma DemandIgnoresOrder(p: seq<real>, q: seq<real>, i: nat, j: nat)
    requires 2 <= |p| && i < |p| && j < |q|
    requires multiset(p) == multiset(q) && p[i] == q[j]
    ensures |q| >= 2 && FirmDemand(p, i) == FirmDemand(q, j)
  {
    assert |p| == |multiset(p)| == |multiset(q)| == |q|;
    SameLowest(p, q);
    CountIsMultiplicity(p, p[i]);
    CountIsMultiplicity(q, q[j]);
    DemandClosedForm(p, i);
    DemandClosedForm(q, j);
  }

  /** Relabelling the firms relabels the demands: if action b rearranges
      action a, then the firm at position j of b receives the demand of the
      firm at position i of a whenever both charge the same price index. */
  lemma RelabelDemand(env: Env, a: seq<int>, b: seq<int>, i: nat, j: nat)
    requires WellFormed(env, a)
    requires multiset(a) == multiset(b)
    requires i < |a| && j < |b| && a[i] == b[j]
    ensures WellFormed(env, b)
    ensures Gather(env.prices, b).value[j] == Gather(env.prices, a).value[i]
    ensures CalculateDemand(env, b).value[j] == CalculateDemand(env, a).value[i]
  {
    assert |a| == |multiset(a)| == |multiset(b)| == |b|;
    GatherRearranged(env.prices, a, b);
    var p, q := Gather(env.prices, a).value, Gather(env.prices, b).value;
    DemandAt(env, a, i);
    DemandAt(env, b, j);
    DemandIgnoresOrder(p, q, i, j);
  }

  /** ... and the profits the same way. */
  lemma RelabelFirms(env: Env, a: seq<int>, b: seq<int>, i: nat, j: nat)
    requires WellFormed(env, a)
    requires multiset(a) == multiset(b)
    requires i < |a| && j < |b| && a[i] == b[j]
    ensures WellFormed(env, b)
    ensures CalculateProfit(env, b).value[j] == CalculateProfit(env, a).value[i]
  {
    RelabelDemand(env, a, b, i, j);
    SamePriceSameProfit(env, a, b, i, j);
  }

  /** Two firms, in two well-formed actions, that pay the same price and sell
      the same quantity make the same profit. */
  lemma SamePriceSameProfit(env: Env, a: seq<int>, b: seq<int>, i: nat, j: nat)
    requires WellFormed(env, a) && WellFormed(env, b) && i < |a| && j < |b|
    requires Gather(env.prices, b).value[j] == Gather(env.prices, a).value[i]
    requires CalculateDemand(env, b).value[j] == CalculateDemand(env, a).value[i]
    ensures CalculateProfit(env, b).value[j] == CalculateProfit(env, a).value[i]
  {
    ProfitVector(env, a);
    ProfitVector(env, b);
    BroadcastSameEntry(Gather(env.prices, a).value, CalculateDemand(env, a).value, i,
                       Gather(env.prices, b).value, CalculateDemand(env, b).value, j);
  }

  /** Equal factors give equal entries of two entrywise products. */
  lemma BroadcastSameEntry(pa: seq<real>, da: seq<real>, i: nat, pb: seq<real>, db: seq<real>, j: nat)
    requires |pa| == |da| && |pb| == |db| && i < |pa| && j < |pb|
    requires pa[i] == pb[j] && da[i] == db[j]
    ensures Broadcast(pb, db).Ok? && Broadcast(pa, da).Ok?
    ensures Broadcast(pb, db).value[j] == Broadcast(pa, da).value[i]
  {
  }

  /** Swapping two firms' price indices swaps their demands and profits and
      leaves every other firm's unchanged. */
  lemma SwapFirms(env: Env, a: seq<int>, i: nat, j: nat, k: nat)
    requires WellFormed(env, a) && i < |a| && j < |a| && k < |a|
    ensures var b := a[i := a[j]][j := a[i]];
            && WellFormed(env, b)
            && CalculateProfit(env, b).value[k] ==
                 CalculateProfit(env, a).value[if k == i then j else if k == j then i else k]
            && CalculateDemand(env, b).value[k] ==
                 CalculateDemand(env, a).value[if k == i then j else if k == j then i else k]
  {
    var b := a[i := a[j]][j := a[i]];
    assert multiset(b) == multiset(a) by {
      if i != j {
        assert multiset(a[i := a[j]]) == multiset(a) - multiset{a[i]} + multiset{a[j]};
      }
    }
    var k' := if k == i then j else if k == j then i else k;
    RelabelDemand(env, a, b, k', k);
    RelabelFirms(env, a, b, k', k);
  }

  /** Profit is price times demand with no cost term, so on the unit grid it
      is never negative. */
  lemma ProfitNonNegative(env: Env, action: seq<int>, i: nat)
    requires WellFormed(env, action) && i < env.nFirms
    requires PriceGrid.Within(env.prices, 0.0, 1.0)
    ensures 0.0 <= CalculateProfit(env, action).value[i]
  {
    DemandBounds(env, action, i);
    ProfitVector(env, action);
    var p := Gather(env.prices, action).value;
    assert 0.0 <= p[i];
    BroadcastNonNegative(p, CalculateDemand(env, action).value, i);
  }

  /** An entrywise product of two non-negative entries is non-negative. */
  lemma BroadcastNonNegative(p: seq<real>, d: seq<real>, i: nat)
    requires |p| == |d| && i < |p| && 0.0 <= p[i] && 0.0 <= d[i]
    ensures Broadcast(p, d).Ok? && 0.0 <= Broadcast(p, d).value[i]
  {
  }

  /** Feeds the actions to `step` one after another; the first failure stops. */
  function Run(env: Env, actions: seq<seq<int>>): Result<Env>
    decreases |actions|
  {
    if |actions| == 0 then Ok(env)
    else
      var next :- Step(env, actions[0]);
      Run(next.0, actions[1..])
  }

  /** However many steps run, `previous_prices` keeps the value `reset` gave
      it and the number of firms and the grid never change. */
  lemma {:induction false} RunKeepsResetPrices(env: Env, actions: seq<seq<int>>)
    requires Run(env, actions).Ok?
    ensures Run(env, actions).value.previousPrices == env.previousPrices
    ensures Run(env, actions).value.nFirms == env.nFirms
    ensures Run(env, actions).value.prices == env.prices
    decreases |actions|
  {
    if |actions| > 0 {
      RunKeepsResetPrices(Step(env, actions[0]).value.0, actions[1..]);
    }
  }

  /** A freshly built environment reports all-zero previous prices after any
      run of steps. */
  lemma PreviousPricesStayZero(nFirms: nat, nPrices: nat, actions: seq<seq<int>>)
    requires Run(New(nFirms, nPrices), actions).Ok?
    ensures Run(New(nFirms, nPrices), actions).value.previousPrices == Zeros(nFirms)
  {
    RunKeepsResetPrices(New(nFirms, nPrices), actions);
  }
}
